=== FILE: README.md ===
# rocketlauncher: the launcher state, opcode set, deferred calls and key table in Dafny

rocketlauncher drives a two-axis USB missile launcher from the keyboard. The
program is built from four parts, and this project models each one:

- **Opcodes.** The device speaks a one-byte protocol. Every opcode but
  `MSG_NONE` is a single bit, and the same bits come back as status flags
  (`Common.hh`).
- **Deferred calls.** Keys are bound to deferred calls ("triggers"). A trigger
  binds a launcher operation, the object to call it on and its arguments when
  it is made, and makes the call when it fires (`Command.hh`).
- **Key table.** A table maps keys to actions. Each action has a
  description, an optional control symbol on screen and an optional trigger.
  The terminal interface dispatches key presses through this table, draws the
  control symbols and prints a help text (`CursesInterface.hh`).
- **Launcher state.** The launcher object keeps an angle estimate, per-axis
  bounds and per-axis traversal times. It also has predicates that say how
  much of the calibration is in place (`Launcher.hh`).

Files:

- `ctypes.dfy` (module `CTypes`): C `char` and `int` as bounded integers, the
  `char` conversion, and the two's-complement bits that C's `&` works on.
- `sequences.dfy` (module `Sequences`): slicing and concatenation facts for
  any element type, which the table lemmas use.
- `protocol.dfy` (module `Protocol`): the opcode set, read two ways.
  - As a command: `Opcode.Value` and `Decode`.
  - As a status mask: `Reports`.
  - Also the 8-byte transfer frame that a transport sends.
- `commands.dfy` (module `Commands`): `Command`, the trigger family
  `Trigger`/`Trigger0`/`Trigger1`/`Trigger2`, and the `MakeTrigger*`
  factories.
  - A call acts on a *world* value `W`.
  - The receiver, held by reference (`T&`), is a `Receiver` view into that
    world. It has a `get` and a `put` function.
  - A bound operation is modelled as a function of its receiver's state
    that changes only the receiver. So a trigger acts on its receiver as the
    receiver is when the trigger fires, and its arguments are the values
    copied when the trigger was made.
- `launcher.dfy` (module `Launchers`): class `Launcher`.
  - Fields: `start`, `theta`, `phi`, the four bounds and the four traversal
    times.
  - The setters and `Stop`, as methods with field-level `modifies` frames.
  - The ranges, and the predicates `MinMaxValid`, `PosValid`, `SpeedValid`
    and `Calibrated`.
- `curses.dfy` (module `Curses`):
  - `Action` and the table entries.
  - Class `CursesInterface` with `ResetActions`, `AddAction`, `SetStatus`,
    `Process`, `ResetControls` and `HelpString`.
  - The specification functions these methods are proved against:
    `FirstMatch`, `Dispatch`, `Controls`, `Visible` and `HelpLines`.

Three facts about the code shape the model:

- The per-axis "speeds" are traversal *times*: `calibrate` measures the
  theta/phi pos/neg times (Launcher.hh:49), and main.cc sets them as the
  times between the two endpoints of each axis (main.cc:26-29).
  `speedValid` only asks that they be positive (Launcher.hh:90-91).
- Every `execute` returns 0 and drops the value the bound operation
  returns (Command.hh:19, 33, 48, 65).
- `process` returns 0 on every path (CursesInterface.hh:198-230).

## Model

| member | source | states |
|---|---|---|
| `Protocol.Opcode.Value` | Common.hh:6-16 | `MSG_NONE` is 0. Every other opcode is a single nonzero bit below 0x80. |
| `Protocol.Opcode.Bit` | Common.hh:9-15 | DOWN, UP, LEFT, RIGHT, FIRE, STOP and STATUS sit at bits 0 to 6 in that order. |
| `CTypes.ToChar8` | main.cc:32 | Converting to `char` keeps a value from -128 to 127 and otherwise wraps modulo 256. |
| `Protocol.Opcode.AsChar` | Common.hh:8-15 | Every opcode fits in a `char` unchanged, as a value from 0 to 0x7F. |
| `Protocol.Decode` | Common.hh:6-16 | Reading a byte as a command gives the opcode with that value, or nothing when no opcode has it. |
| `Protocol.Reports` | Common.hh:8-15 | Read as a status mask, a byte never reports `MSG_NONE`, and a zero byte reports nothing. |
| `Protocol.DecodeValue` | Common.hh:8-15 | Decoding an opcode's value gives back that opcode. |
| `Protocol.Disjoint` | Common.hh:8-15 | Two distinct opcodes share no bit and have distinct values. |
| `Protocol.AsCharInjective` | Common.hh:8-15 | Two opcodes passed as the same `char` are the same opcode. |
| `Protocol.DirectionBits` | Common.hh:9-12 | The motion opcodes are exactly the nonzero opcodes inside bits 0 to 3. FIRE, STOP and STATUS lie outside those bits. |
| `Protocol.StatusRequestIsNoMotion` | Common.hh:15 | A status request shares no bit with a motion, fire or stop opcode. |
| `Protocol.ReportsOwnValue` | Common.hh:8-15 | Read as a status mask, an opcode's value reports that opcode and no other. |
| `Protocol.CommandFrame` | LibUSB10Interface.hh:161-167 | A command sent by the libusb transports is 8 bytes: the message `char` as a byte (itself, or itself plus 256 when negative) first, then zero padding. |
| `Protocol.FrameCarriesOpcode` | LibUSB10Interface.hh:164-167 | The first byte of an opcode's frame decodes to that opcode. |
| `Commands.Trigger.Execute` | Command.hh:18-19 | A free-function trigger calls its function once. It returns 0 whatever the function returns. |
| `Commands.Trigger0.Execute` | Command.hh:32-33 | The bound receiver, as it is at execution time, gets the state from one call of the member function. The result is 0. |
| `Commands.Trigger1.Execute` | Command.hh:47-48 | The member function is called once on the receiver with the captured argument. The result is 0. |
| `Commands.Trigger2.Execute` | Command.hh:63-65 | The member function is called once on the receiver with `a1` and `a2` in construction order. The result is 0. |
| `Commands.MakeTrigger` | Command.hh:23-25 | The `Command` behaves exactly like the `Trigger` built from the same function. |
| `Commands.MakeTrigger0` | Command.hh:38-40 | The `Command` behaves exactly like the `Trigger_0` built from the same receiver and function: it returns 0 and leaves the receiver in the state one call produces. |
| `Commands.MakeTrigger1` | Command.hh:54-56 | The `Command` behaves exactly like the `Trigger_1` built from the same receiver, function and argument: it returns 0 and leaves the receiver in the state one call with the captured argument produces. |
| `Commands.MakeTrigger2` | Command.hh:72-74 | The `Command` behaves exactly like the `Trigger_2` built from the same receiver, function and arguments: it returns 0 and leaves the receiver in the state one call with `a1`, `a2` produces. |
| `Commands.Trigger0Frame` | Command.hh:32-35 | Executing a `Trigger_0` leaves every object separate from its receiver unchanged. |
| `Commands.Trigger1Frame` | Command.hh:47-51 | Executing a `Trigger_1` leaves every object separate from its receiver unchanged. |
| `Commands.Trigger2Frame` | Command.hh:63-70 | Executing a `Trigger_2` leaves every object separate from its receiver unchanged. |
| `Commands.RepeatedTrigger1` | Command.hh:47-52 | After n executions the receiver has seen n calls. Each call got the argument captured at construction. |
| `Commands.ReceiverReadAtExecution` | Command.hh:47-51 | The effect depends only on the receiver's state when the trigger fires: two worlds whose receivers agree give the same new receiver. The receiver is held by reference: whatever state was put into it after the trigger was built is the state the bound operation is applied to. |
| `Launchers.Launcher.MinMaxValid` | Launcher.hh:85-86 | When it holds, no bound still holds the -1 sentinel. |
| `Launchers.Launcher.PosValid` | Launcher.hh:87-89 | When it holds, the bounds of each axis are ordered. |
| `Launchers.Launcher.SpeedValid` | Launcher.hh:90-91 | When it holds, none of the four times is zero. |
| `Launchers.Launcher.Calibrated` | Launcher.hh:83-84 | When it holds, both ranges are non-negative. |
| `Launchers.Launcher.ThetaRange` | Launcher.hh:71 | `thetaMin` plus the range is `thetaMax`. The range is never negative while `posValid()` holds. |
| `Launchers.Launcher.PhiRange` | Launcher.hh:72 | `phiMin` plus the range is `phiMax`. The range is never negative while `posValid()` holds. |
| `Launchers.Launcher.Stop` | Launcher.hh:62 | Sets `start` to -1 and returns 0. Only `start` may change, so calibration is unaffected. |
| `Launchers.Launcher.SetThetaMinMax` | Launcher.hh:65-66 | The theta bounds become `(min, max)` and `thetaRange()` becomes `max - min`. The new validity of the bounds and the position is stated. Speeds are unchanged, and only the two bounds may change. |
| `Launchers.Launcher.SetPhiMinMax` | Launcher.hh:69-70 | The phi bounds become `(min, max)` and `phiRange()` becomes `max - min`. The new validity of the bounds and the position is stated. Speeds are unchanged, and only the two bounds may change. |
| `Launchers.Launcher.SetThetaPosNeg` | Launcher.hh:75-76 | The theta times become `(pos, neg)`. `speedValid()` holds exactly when these and the phi times are positive. Bounds and position validity are unchanged. |
| `Launchers.Launcher.SetPhiPosNeg` | Launcher.hh:79-80 | The phi times become `(pos, neg)`. `speedValid()` holds exactly when these and the theta times are positive. Position, bounds and theta times are unchanged. |
| `Launchers.CalibratedFacts` | Launcher.hh:83-91 | A calibrated launcher has its bounds set and ordered on both axes, ranges that are not negative, and positive times. |
| `Launchers.UnsetBoundUncalibrated` | Launcher.hh:85-86 | Any bound at or below the -1 sentinel makes `minMaxValid()` and `calibrated()` false. |
| `Launchers.Configure` | Launcher.hh:65-91 | Setting times, then bounds that enclose the estimate, calibrates the launcher. The position and `start` are untouched. |
| `Curses.Labelled` | CursesInterface.hh:15-16 | `Action(key, text)` keeps the key and text and has opcode 0, so it is help-only. |
| `Curses.KeyMatches` | CursesInterface.hh:219 | Only an input in the `char` range -128 to 127 can equal a promoted key. |
| `Curses.Dispatch` | CursesInterface.hh:198-230 | No input, a resize, or a key no entry has leaves the world unchanged; so does a first matching entry whose command is null. |
| `Curses.FirstMatch` | CursesInterface.hh:216-219 | Gives the least index whose key equals the input, or nothing when no key matches. |
| `Curses.FirstMatchAppend` | CursesInterface.hh:216-227 | Appending entries keeps an existing first match. Without one, the match shifts into the appended part. |
| `Curses.ShadowedBindings` | CursesInterface.hh:216-227 | Once a key is bound, entries added later never change what that key dispatches to. |
| `Curses.NewBindingRuns` | CursesInterface.hh:216-227 | An entry added for a key that is not yet bound runs its command when that key is pressed. |
| `Curses.HighKeysUnreachable` | CursesInterface.hh:219 | An input byte from 0 to 255 never selects an entry whose key `char` is negative, that is, above 0x7F. |
| `Curses.Highlight` | CursesInterface.hh:147-149 | Bold only for the opcode just issued, and always bold for that opcode unless the status mask makes it standout. |
| `Curses.GlyphOf` | CursesInterface.hh:139-149 | The symbol keeps the action's key and gets `Highlight`'s attribute. It is offset from the action's position by half the screen exactly when the action is centred. |
| `Curses.ControlsOfVisible` | CursesInterface.hh:135-150 | One symbol is drawn per action with a nonzero opcode, in table order. Help-only actions are skipped. |
| `Curses.ControlsStep` | CursesInterface.hh:135-150 | One more table entry adds its symbol at the end when its opcode is nonzero, and adds nothing otherwise. |
| `Curses.LabelledHidden` | CursesInterface.hh:138 | Adding an action with opcode 0 changes none of the drawn symbols, whatever its offsets and centring flag hold, so the offsets that `Action(key, text)` leaves unset are never read. |
| `Curses.IdleNoStandout` | CursesInterface.hh:147 | With a zero status mask, no symbol is drawn standout. |
| `Curses.StandoutIffReported` | CursesInterface.hh:147 | For a device status byte, an opcode's symbol is standout exactly when the status reports that opcode. |
| `Curses.BoldIffIssued` | CursesInterface.hh:147-148 | When its opcode is not active, a symbol is bold exactly when that opcode was the one just issued. Otherwise it is normal. |
| `Curses.CenteredShift` | CursesInterface.hh:139-144 | A centred symbol is shifted by exactly `(halfLines, halfCols)` from the uncentred one. The key and attribute are the same. |
| `Curses.KeyChar` | CursesInterface.hh:322 | The key is printed as the byte it holds: a non-negative key as itself, a negative key as itself plus 256. |
| `Curses.HelpLine` | CursesInterface.hh:322 | The line is `" '"`, the key, `"'  "`, the text and a newline, and is 7 characters longer than the text. |
| `Curses.HelpLinesSnoc` | CursesInterface.hh:319-323 | An entry added last adds its help line last. |
| `Curses.HelpLinesStep` | CursesInterface.hh:319-323 | The help lines of the first i+1 entries are those of the first i, then entry i's line. |
| `Curses.HelpLinesSplit` | CursesInterface.hh:319-323 | The help lines of a table are those of entries 0 to i, then those of the rest. |
| `Curses.HelpLinesAppend` | CursesInterface.hh:319-323 | The help lines of a concatenated table are the lines of the first part, then the lines of the second. |
| `Curses.HelpLineAt` | CursesInterface.hh:319-323 | Entry i's help line comes after the lines of entries 0 to i-1 and before the rest. |
| `Curses.HelpLineIsOneLine` | CursesInterface.hh:322 | An action without line breaks in its key or text prints as exactly one line. |
| `Curses.HelpLinesCount` | CursesInterface.hh:319-323 | The entries print one line each. |
| `Curses.HeaderCount` | CursesInterface.hh:318 | The header is exactly one line. |
| `Curses.HelpLineCount` | CursesInterface.hh:315-325 | The help text has one header line plus one line per entry. |
| `Curses.CursesInterface.constructor` | CursesInterface.hh:34-36 | Starts with zero sizes, an empty table, debug off, status 0 and the terminal not yet opened. |
| `Curses.CursesInterface.ResetActions` | CursesInterface.hh:38-44 | The table is empty afterwards. |
| `Curses.CursesInterface.AddAction` | CursesInterface.hh:112-113 | The table grows by one, with `(a, c)` last and earlier entries unchanged. The help text gains exactly the new entry's line. |
| `Curses.CursesInterface.SetStatus` | CursesInterface.hh:125-129 | Stores 0 for a negative input and the input otherwise, so the status is never negative. |
| `Curses.CursesInterface.Process` | CursesInterface.hh:198-230 | Always returns 0. Input -1 or 0, or a resize, runs nothing. Otherwise only the first entry with that key runs its command, and nothing runs when that command is null or no key matches. |
| `Curses.CursesInterface.DrawControl` | CursesInterface.hh:139-149 | The position and attribute computed for one action's symbol are those of `GlyphOf`. |
| `Curses.CursesInterface.ResetControls` | CursesInterface.hh:131-153 | Returns 0 and draws exactly `Controls` of the table, or nothing in debug mode. |
| `Curses.CursesInterface.HelpString` | CursesInterface.hh:315-325 | Returns the header line followed by the help lines of the table, in table order. |

## Left out

- The launcher operations in `Launcher.icc`, which is not part of this model:
  - `update_status`, `wait`, `move`, `moveHome`, `moveTimed`, `moveRel`, `moveAbs`;
  - `fire`, `fireTimeout`, `calibrate`, `goHome`, `goRel`, `goAbs`;
  - `process`, `connect`, `disconnect`, `adjust`, `init`;
  - `printStatusPV`, `printStatusMV`, `printHelp`.

  The dead reckoning, limit snapping and calibration arithmetic live there. A freshly allocated `Launcher` therefore has unconstrained fields; in C++ the constructor runs `init()` (Launcher.hh:22, 97), whose body is not part of this model.
- The launcher's fields `_current`, `_statusOld`, `_mi`, `_ui`, `_debug` and `_timer`. They are used by the code in `Launcher.icc` and by the constructor (which initialises `_mi`), `setDebug` (which writes `_debug` and forwards to `_mi` and `_ui`) and `addAction` (which appends to `_ui`'s table), all of which are left out.
- The launcher's constructor, `setDebug` and `addAction` (Launcher.hh:21-22, 92-94). They forward to the transport and to the interface; `Curses.CursesInterface.AddAction` models the table update.
- The one-line getters of `Launcher.hh`. The model's fields are public, so they are read directly.
- `Timer` in `Common.hh`. It is the wall clock and floating point.
- Floating point. The launcher's doubles are reals, so rounding is not modelled.
- The transports: `IOKitInterface`, `LibUSBInterface` and `LibUSB10Interface`. They are device I/O. Only the layout of the buffer that the libusb transports' `send` transmits is modelled (`CommandFrame`; LibUSB10Interface.hh:164-167, LibUSBInterface.hh:174-177). `IOKitInterface::send` sets only the first byte and leaves the other seven uninitialised (IOKitInterface.cc:226-228); that padding is not modelled.
- Terminal rendering and input, and the debug-mode logging of `process`, which writes the key and the action text to `cout`/`cerr` (CursesInterface.hh:212-215, 220-222):
  - `redrawScreen`, `print_status`, `announce`, `kbhit`, `getString`;
  - `makeHelpWindow`, `showHelp`, `open`, `close`;
  - `resizeScreen`, `setDebug`, the destructor.

  The pressed key is a parameter of `Process`. `KEY_RESIZE` takes the ncurses value 0632; `curses.h` is not part of this model.
- `Curses.CursesInterface.Process`: does not model the screen output of a dispatch. That output is `print_status` of the action's text and the `resetControls(a._cmd)` redraw that follows. `ResetControls` models what that redraw draws. On a resize, `Process` does not model the screen-size update.
- `Curses.CursesInterface.ResetActions`: does not model the `delete` of each command. A command pointer added twice would be deleted twice; the model holds commands as values.
- `Commands.Trigger0.Execute`: a bound operation is modelled as a function of its receiver's state that changes only the receiver. What the launcher's operations read besides it (the clock, the device, terminal input) and what else they change (the launcher's own interface object, which dispatches the trigger) is not captured.
- `Commands.Trigger1.Execute`: as for `Trigger0.Execute`.
- `Commands.Trigger2.Execute`: as for `Trigger0.Execute`.
- `Commands.Trigger0Frame`: holds because of that modelling of a bound operation, not because the C++ member functions touch only their receiver.
- `Commands.Trigger1Frame`: as for `Trigger0Frame`.
- `Commands.Trigger2Frame`: as for `Trigger0Frame`.
- `Commands.ReceiverReadAtExecution`: holds because of that modelling of a bound operation; a C++ operation that reads the clock or the device can act differently on the same receiver state.
- `Commands.Trigger.Execute`: the free function's effect is an arbitrary function of the whole world. Only "called once, result 0" is stated.
- A bound command that changes the interface's own table while `process` iterates over it. Commands act on the world value, not on the interface object.
- 32-bit overflow in the screen arithmetic of `resetControls` (offset plus half screen size). Those integers are unbounded here. The status mask and the opcodes use their exact C widths.
- `Action(key, text)` leaves the offsets and `fromCenter` uninitialised in C++. `Labelled` sets them to 0 and false; `LabelledHidden` holds for any values they could have, so nothing reads them.
- `char` is taken as signed, as on the x86, x86-64 and Apple ABIs. The libusb transports also build where `char` is unsigned (ARM and AArch64 Linux). There, keys and opcodes above 0x7F behave differently, and the statements on the lines below do not apply.
- `CTypes.ToChar8`: its negative results assume a signed `char`.
- `Curses.KeyMatches`: its -128..127 range assumes a signed `char`.
- `Curses.HighKeysUnreachable`: assumes a signed `char`. With an unsigned `char`, an input byte 0x80-0xFF does match a key above 0x7F (CursesInterface.hh:202, 219).
- `Curses.KeyChar`: its negative case assumes a signed `char`.
- `Protocol.CommandFrame`: its negative case assumes a signed `char`.
- `Curses.Highlight`: the sign extension in the `_status & a._cmd` test assumes a signed `char`.
- Strings are sequences of Unicode characters, and `KeyChar` maps a byte to the character with that code. C++'s `std::string` and streams carry bytes; encodings are not modelled.
- `main.cc`, the wiring of keys to launcher operations, which has no logic of its own.

=== FILE: commands.dfy ===
/** The deferred calls of Command.hh. A trigger binds an operation, the
    receiver it is called on and its arguments when it is built, and makes the
    call when it is executed. The state the calls act on is a value of type W
    (the world); a receiver held by reference (`T&`) is a view into that world,
    so an execution acts on the receiver as it is when the trigger fires, while
    the arguments are the values copied at construction. */
module Commands {

  /** A reference to an object of type T inside the world W: read it, or write
      a new state of it back. */
  datatype Receiver<!W, !T> = Receiver(get: W -> T, put: (W, T) -> W)

  /** A reference behaves like one object: what is written is read back, and
      writing back what was read changes nothing. */
  ghost predicate Lawful<W(!new), T(!new)>(r: Receiver<W, T>)
  {
    && (forall w, t :: r.get(r.put(w, t)) == t)
    && (forall w :: r.put(w, r.get(w)) == w)
  }

  /** Writing through `r` leaves the object `q` refers to as it was. */
  ghost predicate Separate<W(!new), T(!new), U>(r: Receiver<W, T>, q: Receiver<W, U>)
  {
    forall w, t :: q.get(r.put(w, t)) == q.get(w)
  }

  /** The base class `Command`: executing it acts on the world and yields a status code. */
  datatype Command<!W> = Command(execute: W -> (W, int))

  /** `Trigger<T>`: a free function without arguments, acting on the world as a whole. */
  datatype Trigger<!W, RV> = Trigger(f: W -> (W, RV))
  {
    /** One call of `f`; whatever `f` returns, the status is 0. */
    function Execute(w: W): (r: (W, int))
      ensures r.1 == 0
      ensures r.0 == f(w).0
    {
      (f(w).0, 0)
    }
  }

  /** `Trigger_0`: a member function without arguments, bound to a receiver. */
  datatype Trigger0<!W(!new), !T(!new), RV> = Trigger0(t: Receiver<W, T>, f: T -> (T, RV))
  {
    /** The receiver, as it is at execution time, is replaced by its state
        after one call of `f`; the status is 0 whatever `f` returns. */
    function Execute(w: W): (r: (W, int))
      ensures r.1 == 0
      ensures Lawful(t) ==> t.get(r.0) == f(t.get(w)).0
    {
      (t.put(w, f(t.get(w)).0), 0)
    }
  }

  /** `Trigger_1`: a member function of one argument, bound to a receiver and
      to the argument value `a`. */
  datatype Trigger1<!W(!new), !T(!new), RV, !A> = Trigger1(t: Receiver<W, T>, f: (T, A) -> (T, RV), a: A)
  {
    function Execute(w: W): (r: (W, int))
      ensures r.1 == 0
      ensures Lawful(t) ==> t.get(r.0) == f(t.get(w), a).0
    {
      (t.put(w, f(t.get(w), a).0), 0)
    }
  }

  /** `Trigger_2`: a member function of two arguments, bound to a receiver and
      to the argument values `a1` and `a2`. */
  datatype Trigger2<!W(!new), !T(!new), RV, !A1, !A2> =
    Trigger2(t: Receiver<W, T>, f: (T, A1, A2) -> (T, RV), a1: A1, a2: A2)
  {
    function Execute(w: W): (r: (W, int))
      ensures r.1 == 0
      ensures Lawful(t) ==> t.get(r.0) == f(t.get(w), a1, a2).0
    {
      (t.put(w, f(t.get(w), a1, a2).0), 0)
    }
  }

  /** `makeTrigger`: the trigger behind the uniform `Command` interface. */
  function MakeTrigger<W(!new), RV>(f: W -> (W, RV)): (c: Command<W>)
    ensures forall w :: c.execute(w) == Trigger(f).Execute(w)
  {
    Command(w => Trigger(f).Execute(w))
  }

  /** `makeTrigger_0`. */
  function MakeTrigger0<W(!new), T(!new), RV>(t: Receiver<W, T>, f: T -> (T, RV)): (c: Command<W>)
    ensures forall w :: c.execute(w) == Trigger0(t, f).Execute(w)
    ensures Lawful(t) ==> forall w :: c.execute(w).1 == 0 && t.get(c.execute(w).0) == f(t.get(w)).0
  {
    Command(w => Trigger0(t, f).Execute(w))
  }

  /** `makeTrigger_1`. */
  function MakeTrigger1<W(!new), T(!new), RV, A>(t: Receiver<W, T>, f: (T, A) -> (T, RV), a: A): (c: Command<W>)
    ensures forall w :: c.execute(w) == Trigger1(t, f, a).Execute(w)
    ensures Lawful(t) ==> forall w :: c.execute(w).1 == 0 && t.get(c.execute(w).0) == f(t.get(w), a).0
  {
    Command(w => Trigger1(t, f, a).Execute(w))
  }

  /** `makeTrigger_2`. */
  function MakeTrigger2<W(!new), T(!new), RV, A1, A2>(t: Receiver<W, T>, f: (T, A1, A2) -> (T, RV), a1: A1, a2: A2)
    : (c: Command<W>)
    ensures forall w :: c.execute(w) == Trigger2(t, f, a1, a2).Execute(w)
    ensures Lawful(t) ==> forall w :: c.execute(w).1 == 0 && t.get(c.execute(w).0) == f(t.get(w), a1, a2).0
  {
    Command(w => Trigger2(t, f, a1, a2).Execute(w))
  }

  /** Executing a bound member function touches no object other than its receiver. */
  lemma Trigger0Frame<W(!new), T(!new), RV, U>(tr: Trigger0<W, T, RV>, q: Receiver<W, U>, w: W)
    requires Separate(tr.t, q)
    ensures q.get(tr.Execute(w).0) == q.get(w)
  {
  }

  lemma Trigger1Frame<W(!new), T(!new), RV, A, U>(tr: Trigger1<W, T, RV, A>, q: Receiver<W, U>, w: W)
    requires Separate(tr.t, q)
    ensures q.get(tr.Execute(w).0) == q.get(w)
  {
  }

  lemma Trigger2Frame<W(!new), T(!new), RV, A1, A2, U>(tr: Trigger2<W, T, RV, A1, A2>, q: Receiver<W, U>, w: W)
    requires Separate(tr.t, q)
    ensures q.get(tr.Execute(w).0) == q.get(w)
  {
  }

  /** `n` executions of a command, one after the other. */
  function Repeat<W>(c: Command<W>, w: W, n: nat): W
  {
    if n == 0 then w else c.execute(Repeat(c, w, n - 1)).0
  }

  /** `n` calls of `f`, each given the same argument `a`. */
  function Iterate<T, A, RV>(f: (T, A) -> (T, RV), a: A, x: T, n: nat): T
  {
    if n == 0 then x else f(Iterate(f, a, x, n - 1), a).0
  }

  /** However often a one-argument trigger fires, each call receives the
      argument captured when the trigger was made. */
  lemma {:induction false} RepeatedTrigger1<W(!new), T(!new), RV, A>(t: Receiver<W, T>, f: (T, A) -> (T, RV), a: A, w: W, n: nat)
    requires Lawful(t)
    ensures t.get(Repeat(MakeTrigger1(t, f, a), w, n)) == Iterate(f, a, t.get(w), n)
  {
    if n > 0 {
      RepeatedTrigger1(t, f, a, w, n - 1);
    }
  }

  /** A trigger reads its receiver when it fires, not when it is made: two
      worlds in which the receiver is in the same state leave it in the same state. */
  lemma ReceiverReadAtExecution<W(!new), T(!new), RV, A>(tr: Trigger1<W, T, RV, A>, w1: W, w2: W)
    requires Lawful(tr.t)
    requires tr.t.get(w1) == tr.t.get(w2)
    ensures tr.t.get(tr.Execute(w1).0) == tr.t.get(tr.Execute(w2).0)
    ensures forall s :: tr.t.get(tr.Execute(tr.t.put(w1, s)).0) == tr.f(s, tr.a).0
  {
  }
}

=== FILE: ctypes.dfy ===
/** The C integer types the launcher and its interface compute with, and
    the two's-complement view that C's bitwise operators work on. */
module CTypes {

  datatype Option<T> = None | Some(value: T)

  /** A C `char`, taken as signed and eight bits wide, as on the x86, x86-64
      and Apple ABIs; where `char` is unsigned (ARM and AArch64 Linux) the
      statements that rely on negative keys and opcodes do not apply. */
  newtype Char8 = x: int | -0x80 <= x < 0x80

  /** A C `int`: 32 bits wide. */
  newtype Int32 = x: int | -0x8000_0000 <= x < 0x8000_0000

  /** C's `unsigned char`: the bytes of a USB transfer buffer. */
  newtype UChar = x: int | 0 <= x < 0x100

  /** Conversion of an integer to `char` (as in `char(MSG_LEFT)`): keeps the low
      eight bits, read back as a signed value. */
  function ToChar8(x: int): (c: Char8)
    ensures -0x80 <= x < 0x80 ==> c as int == x
    ensures (c as int - x) % 0x100 == 0
  {
    var low := x % 0x100;
    if low < 0x80 then low as Char8 else (low - 0x100) as Char8
  }

  /** The bit pattern of a 32-bit `int` in two's complement. */
  function Bits32(x: Int32): bv32
  {
    if x >= 0 then x as int as bv32 else (x as int + 0x1_0000_0000) as bv32
  }

  /** The integer promotion of a `char` to `int` (sign extension). */
  function Widen(c: Char8): (x: Int32)
    ensures x as int == c as int
  {
    c as int as Int32
  }

  /** A value below 0x100 has the same bits as an `int` and as a byte. */
  lemma ByteBits(x: int)
    requires 0 <= x < 0x100
    ensures x as bv32 == (x as bv8) as bv32
  {
  }

  /** Widening two bytes to 32 bits commutes with their bitwise AND. */
  lemma WidenAnd(x: bv8, y: bv8)
    ensures (x as bv32) & (y as bv32) == (x & y) as bv32
  {
  }
}

=== FILE: curses.dfy ===
/** The key-to-action table of CursesInterface.hh, without the terminal: the
    table itself, dispatch of an input key to the first matching entry, the
    status mask, the choice of where and how each control symbol is drawn, and
    the help text. Bound commands act on a world of type W (see Commands). */
module Curses {
  import opened CTypes
  import opened Protocol
  import opened Commands
  import opened Sequences

  /** ncurses' key code for a terminal resize (`KEY_RESIZE`, octal 0632). */
  const KeyResize: int := 0x19A

  /** An action: its key, its description, where its control symbol sits on
      the screen, and the opcode it shows (0 for a help-only action). */
  datatype Action = Action(key: Char8, text: string, lineOffset: int, colOffset: int,
                           fromCenter: bool, cmd: Char8)

  /** `Action(key, text)`: a help-only action. The C++ constructor sets no
      offsets and no centring; they are 0 and false here, and a lemma below
      shows that nothing reads them. */
  function Labelled(key: Char8, text: string): (a: Action)
    ensures a.key == key && a.text == text && a.cmd == 0
  {
    Action(key, text, 0, 0, false, 0)
  }

  /** One row of the table: an action and the command it triggers (`Command*`, possibly null). */
  datatype Entry<!W> = Entry(action: Action, command: Option<Command<W>>)

  // ---------------------------------------------------------------------
  // Dispatch

  /** Whether an input key selects an entry with key `k` (the `char` is
      promoted to `int`): only inputs in the `char` range can match. */
  predicate KeyMatches(k: Char8, c: int)
    ensures KeyMatches(k, c) ==> -0x80 <= c < 0x80
  {
    k as int == c
  }

  /** The index of the first entry whose key is `c`, if there is one. */
  function FirstMatch<W>(entries: seq<Entry<W>>, c: int): (r: Option<nat>)
    ensures r.Some? ==> r.value < |entries| && KeyMatches(entries[r.value].action.key, c)
    ensures r.Some? ==> forall j :: 0 <= j < r.value ==> !KeyMatches(entries[j].action.key, c)
    ensures r.None? ==> forall j :: 0 <= j < |entries| ==> !KeyMatches(entries[j].action.key, c)
  {
    if entries == [] then None
    else if KeyMatches(entries[0].action.key, c) then Some(0)
    else match FirstMatch(entries[1..], c)
      case None => None
      case Some(i) => Some(i + 1)
  }

  /** What `process` does to the world for input `c`: no input (-1 or 0) and a
      resize do nothing; otherwise the command of the first entry with key `c`
      runs, if that entry has one. */
  function Dispatch<W>(entries: seq<Entry<W>>, c: int, w: W): (w': W)
    ensures c == -1 || c == 0 || c == KeyResize ==> w' == w
    ensures (forall j :: 0 <= j < |entries| ==> !KeyMatches(entries[j].action.key, c)) ==> w' == w
    ensures forall j :: (0 <= j < |entries| && KeyMatches(entries[j].action.key, c) && entries[j].command.None?
                         && forall k :: 0 <= k < j ==> !KeyMatches(entries[k].action.key, c)) ==> w' == w
  {
    if c == -1 || c == 0 || c == KeyResize then w
    else match FirstMatch(entries, c)
      case None => w
      case Some(i) =>
        match entries[i].command
        case None => w
        case Some(cmd) => cmd.execute(w).0
  }

  /** Appending entries after one that already matches `c` changes nothing:
      a key bound twice always dispatches to its first binding. */
  lemma {:induction false} FirstMatchAppend<W>(entries: seq<Entry<W>>, later: seq<Entry<W>>, c: int)
    ensures FirstMatch(entries, c).Some? ==> FirstMatch(entries + later, c) == FirstMatch(entries, c)
    ensures FirstMatch(entries, c).None? && FirstMatch(later, c).Some? ==>
              FirstMatch(entries + later, c) == Some(|entries| + FirstMatch(later, c).value)
    ensures FirstMatch(entries, c).None? && FirstMatch(later, c).None? ==>
              FirstMatch(entries + later, c).None?
  {
    if entries == [] {
      AppendNil(later);
    } else {
      DropAppend(entries, later);
      FirstMatchAppend(entries[1..], later, c);
    }
  }

  /** Entries added after a binding for `c` never run for `c`. */
  lemma ShadowedBindings<W>(entries: seq<Entry<W>>, later: seq<Entry<W>>, c: int, w: W)
    requires exists j :: 0 <= j < |entries| && KeyMatches(entries[j].action.key, c)
    ensures Dispatch(entries + later, c, w) == Dispatch(entries, c, w)
  {
    FirstMatchAppend(entries, later, c);
    assert FirstMatch(entries, c).Some?;
    var i := FirstMatch(entries, c).value;
    IndexAppend(entries, later, i);
  }

  /** An entry added for a key no earlier entry has runs its command on that key. */
  lemma NewBindingRuns<W>(entries: seq<Entry<W>>, a: Action, cmd: Command<W>, w: W)
    requires forall j :: 0 <= j < |entries| ==> entries[j].action.key != a.key
    requires a.key != 0 && a.key != -1
    ensures Dispatch(entries + [Entry(a, Some(cmd))], a.key as int, w) == cmd.execute(w).0
  {
    var c := a.key as int;
    assert FirstMatch([Entry(a, Some(cmd))], c) == Some(0);
    FirstMatchAppend(entries, [Entry(a, Some(cmd))], c);
    assert c != KeyResize;
  }

  /** An input byte (0 to 255, as `getch` and `read` deliver it) never
      selects an entry whose key is a `char` above 0x7F, which is negative
      once promoted to `int`. */
  lemma HighKeysUnreachable<W>(entries: seq<Entry<W>>, c: int, i: nat)
    requires 0 <= c < 0x100
    requires i < |entries| && entries[i].action.key < 0
    ensures FirstMatch(entries, c) != Some(i)
  {
  }

  // ---------------------------------------------------------------------
  // Controls

  /** The attribute a control symbol is drawn with. */
  datatype Attr = Standout | Bold | Normal

  /** One symbol drawn by `resetControls`: position, key and attribute. */
  datatype Glyph = Glyph(row: int, col: int, key: Char8, attr: Attr)

  /** Standout when the status mask shares a bit with the action's opcode;
      otherwise bold for the opcode just issued; otherwise normal. */
  function Highlight(status: Int32, cmd: Char8, a: Action): (attr: Attr)
    ensures attr == Bold ==> cmd == a.cmd
    ensures attr != Standout && cmd == a.cmd ==> attr == Bold
  {
    if Bits32(status) & Bits32(Widen(a.cmd)) != 0 then Standout
    else if cmd == a.cmd then Bold
    else Normal
  }

  /** The symbol of one action, offset from the screen centre when the action asks for it. */
  function GlyphOf(a: Action, status: Int32, cmd: Char8, halfLines: int, halfCols: int): (g: Glyph)
    ensures g.key == a.key && g.attr == Highlight(status, cmd, a)
    ensures g.row - a.lineOffset == (if a.fromCenter then halfLines else 0)
    ensures g.col - a.colOffset == (if a.fromCenter then halfCols else 0)
  {
    var row := if a.fromCenter then a.lineOffset + halfLines else a.lineOffset;
    var col := if a.fromCenter then a.colOffset + halfCols else a.colOffset;
    Glyph(row, col, a.key, Highlight(status, cmd, a))
  }

  /** The actions that have a control symbol, in table order. */
  function Visible<W>(entries: seq<Entry<W>>): seq<Action>
  {
    if entries == [] then []
    else
      var a := entries[|entries| - 1].action;
      Visible(entries[..|entries| - 1]) + (if a.cmd == 0 then [] else [a])
  }

  /** The symbols `resetControls` draws, in table order. */
  function Controls<W>(entries: seq<Entry<W>>, status: Int32, cmd: Char8, halfLines: int, halfCols: int)
    : seq<Glyph>
  {
    if entries == [] then []
    else
      var a := entries[|entries| - 1].action;
      Controls(entries[..|entries| - 1], status, cmd, halfLines, halfCols)
        + (if a.cmd == 0 then [] else [GlyphOf(a, status, cmd, halfLines, halfCols)])
  }

  /** One more entry adds its symbol, if it has one, at the end. */
  lemma ControlsStep<W>(entries: seq<Entry<W>>, i: nat, status: Int32, cmd: Char8, halfLines: int, halfCols: int)
    requires i < |entries|
    ensures entries[i].action.cmd == 0 ==>
      Controls(entries[..i + 1], status, cmd, halfLines, halfCols)
        == Controls(entries[..i], status, cmd, halfLines, halfCols)
    ensures entries[i].action.cmd != 0 ==>
      Controls(entries[..i + 1], status, cmd, halfLines, halfCols)
        == Controls(entries[..i], status, cmd, halfLines, halfCols) + [GlyphOf(entries[i].action, status, cmd, halfLines, halfCols)]
  {
    TakeTake(entries, i, i + 1);
    AppendNil(Controls(entries[..i], status, cmd, halfLines, halfCols));
  }

  /** Exactly the actions with a nonzero opcode get a symbol, one each, in table order. */
  lemma {:induction false} ControlsOfVisible<W>(entries: seq<Entry<W>>, status: Int32, cmd: Char8,
                                                 halfLines: int, halfCols: int)
    ensures |Controls(entries, status, cmd, halfLines, halfCols)| == |Visible(entries)|
    ensures forall k :: 0 <= k < |Visible(entries)| ==>
              Visible(entries)[k].cmd != 0 &&
              Controls(entries, status, cmd, halfLines, halfCols)[k]
                == GlyphOf(Visible(entries)[k], status, cmd, halfLines, halfCols)
  {
    if entries != [] {
      var init, a := entries[..|entries| - 1], entries[|entries| - 1].action;
      ControlsOfVisible(init, status, cmd, halfLines, halfCols);
      if a.cmd != 0 {
        var vs, gs := Visible(init), Controls(init, status, cmd, halfLines, halfCols);
        forall k | 0 <= k < |vs|
          ensures (vs + [a])[k] == vs[k] && (gs + [GlyphOf(a, status, cmd, halfLines, halfCols)])[k] == gs[k]
        {
          IndexAppend(vs, [a], k);
          IndexAppend(gs, [GlyphOf(a, status, cmd, halfLines, halfCols)], k);
        }
      }
    }
  }

  /** Help-only actions get no symbol, whatever their unset offsets hold:
      `Labelled(key, text)` is the case `lo == co == 0`, `fc == false`. */
  lemma LabelledHidden<W>(entries: seq<Entry<W>>, key: Char8, text: string,
                          lo: int, co: int, fc: bool, c: Option<Command<W>>,
                          status: Int32, cmd: Char8, halfLines: int, halfCols: int)
    ensures Controls(entries + [Entry(Action(key, text, lo, co, fc, 0), c)], status, cmd, halfLines, halfCols)
         == Controls(entries, status, cmd, halfLines, halfCols)
  {
    Snoc(entries, Entry(Action(key, text, lo, co, fc, 0), c));
  }

  /** With an empty status mask no symbol stands out. */
  lemma {:induction false} IdleNoStandout<W>(entries: seq<Entry<W>>, cmd: Char8, halfLines: int, halfCols: int)
    ensures forall g :: g in Controls(entries, 0, cmd, halfLines, halfCols) ==> g.attr != Standout
  {
    if entries != [] {
      IdleNoStandout(entries[..|entries| - 1], cmd, halfLines, halfCols);
    }
  }

  /** For a device status byte and an action showing opcode `o`, the symbol
      stands out exactly when the device reports `o` as active. */
  lemma StandoutIffReported(status: Int32, cmd: Char8, a: Action, o: Opcode)
    requires 0 <= status < 0x100
    requires a.cmd == o.AsChar()
    ensures Highlight(status, cmd, a) == Standout <==> Reports(status as int as bv8, o)
  {
    ByteBits(status as int);
    CharBits(o);
    WidenAnd(status as int as bv8, o.Value());
  }

  /** When the device does not report `o`, the symbol of `o` is bold exactly
      when `o` is the opcode just issued. */
  lemma BoldIffIssued(status: Int32, a: Action, o: Opcode, issued: Opcode)
    requires 0 <= status < 0x100
    requires a.cmd == o.AsChar()
    requires !Reports(status as int as bv8, o)
    ensures Highlight(status, issued.AsChar(), a) == Bold <==> issued == o
  {
    StandoutIffReported(status, issued.AsChar(), a, o);
    assert Highlight(status, issued.AsChar(), a) != Standout;
    if issued.AsChar() == a.cmd {
      AsCharInjective(issued, o);
    }
  }

  /** A centred symbol sits exactly half a screen down and across from where
      the same action's uncentred symbol sits. */
  lemma CenteredShift(a: Action, status: Int32, cmd: Char8, halfLines: int, halfCols: int)
    ensures var g := GlyphOf(a.(fromCenter := true), status, cmd, halfLines, halfCols);
            var h := GlyphOf(a.(fromCenter := false), status, cmd, halfLines, halfCols);
            g.row == h.row + halfLines && g.col == h.col + halfCols && g.attr == h.attr && g.key == h.key
  {
  }

  // ---------------------------------------------------------------------
  // Help text

  const HelpHeader: string := "Key  Action\n"

  /** A `char` written to a stream: the byte it holds. */
  function KeyChar(k: Char8): (ch: char)
    ensures ch as int < 0x100
    ensures 0 <= k ==> ch as int == k as int
    ensures k < 0 ==> ch as int == k as int + 0x100
  {
    ((k as int) % 0x100) as char
  }

  /** The help line of one action: its key in quotes and its description. */
  function HelpLine(a: Action): (line: string)
    ensures |line| == |a.text| + 7
    ensures line[..2] == " '" && line[2] == KeyChar(a.key) && line[3..6] == "'  "
    ensures line[6..|line| - 1] == a.text && line[|line| - 1] == '\n'
  {
    " '" + [KeyChar(a.key)] + "'" + "  " + a.text + "\n"
  }

  function HelpLines<W>(entries: seq<Entry<W>>): string
  {
    if entries == [] then ""
    else HelpLines(entries[..|entries| - 1]) + HelpLine(entries[|entries| - 1].action)
  }

  /** One more entry adds its help line at the end. */
  lemma HelpLinesSnoc<W>(entries: seq<Entry<W>>, e: Entry<W>)
    ensures HelpLines(entries + [e]) == HelpLines(entries) + HelpLine(e.action)
  {
    Snoc(entries, e);
  }

  /** The help text of a table is that of its first part followed by that of the rest. */
  lemma {:induction false} HelpLinesAppend<W>(front: seq<Entry<W>>, back: seq<Entry<W>>)
    ensures HelpLines(front + back) == HelpLines(front) + HelpLines(back)
  {
    if back == [] {
      AppendNil(front);
    } else {
      var init, e := back[..|back| - 1], back[|back| - 1];
      InitLast(back);
      SnocAssoc(front, init, e);
      calc {
        HelpLines(front + back);
        HelpLines((front + init) + [e]);
        { HelpLinesSnoc(front + init, e); }
        HelpLines(front + init) + HelpLine(e.action);
        { HelpLinesAppend(front, init); }
        (HelpLines(front) + HelpLines(init)) + HelpLine(e.action);
        { Assoc(HelpLines(front), HelpLines(init), HelpLine(e.action)); }
        HelpLines(front) + (HelpLines(init) + HelpLine(e.action));
        { HelpLinesSnoc(init, e); }
        HelpLines(front) + HelpLines(back);
      }
    }
  }

  /** The help text of the first `i + 1` entries extends that of the first `i` by line `i`. */
  lemma HelpLinesStep<W>(entries: seq<Entry<W>>, i: nat)
    requires i < |entries|
    ensures HelpLines(entries[..i + 1]) == HelpLines(entries[..i]) + HelpLine(entries[i].action)
  {
    TakeTake(entries, i, i + 1);
  }

  /** The help text of a table, split after entry `i`. */
  lemma HelpLinesSplit<W>(entries: seq<Entry<W>>, i: nat)
    requires i < |entries|
    ensures HelpLines(entries) == HelpLines(entries[..i + 1]) + HelpLines(entries[i + 1..])
  {
    SplitAt(entries, i + 1);
    HelpLinesAppend(entries[..i + 1], entries[i + 1..]);
  }

  /** Entry `i` contributes the help line that follows the lines of entries 0 to i-1. */
  lemma HelpLineAt<W>(entries: seq<Entry<W>>, i: nat)
    requires i < |entries|
    ensures HelpLines(entries)
         == HelpLines(entries[..i]) + HelpLine(entries[i].action) + HelpLines(entries[i + 1..])
  {
    HelpLinesSplit(entries, i);
    HelpLinesStep(entries, i);
  }

  function CountOf(s: string, ch: char): nat
  {
    if s == [] then 0 else CountOf(s[..|s| - 1], ch) + (if s[|s| - 1] == ch then 1 else 0)
  }

  lemma {:induction false} CountOfAppend(s: string, t: string, ch: char)
    ensures CountOf(s + t, ch) == CountOf(s, ch) + CountOf(t, ch)
  {
    if t == [] {
      AppendNil(s);
    } else {
      InitAppend(s, t);
      CountOfAppend(s, t[..|t| - 1], ch);
    }
  }

  /** An action whose key and description hold no line break prints as one line. */
  predicate SingleLine(a: Action)
  {
    a.key != 10 && '\n' !in a.text
  }

  lemma HelpLineIsOneLine(a: Action)
    requires SingleLine(a)
    ensures CountOf(HelpLine(a), '\n') == 1
  {
    var quoted := " '" + [KeyChar(a.key)] + "'";
    assert HelpLine(a) == quoted + "  " + a.text + "\n";
    CountOfAppend(quoted + "  " + a.text, "\n", '\n');
    CountOfAppend(quoted + "  ", a.text, '\n');
    CountOfAppend(quoted, "  ", '\n');
    CountOfAppend(" '" + [KeyChar(a.key)], "'", '\n');
    CountOfAppend(" '", [KeyChar(a.key)], '\n');
    assert KeyChar(a.key) != '\n' by {
      if a.key >= 0 {
      } else {
        assert KeyChar(a.key) as int >= 0x80;
      }
    }
    if CountOf(a.text, '\n') != 0 {
      CountOfMember(a.text, '\n');
    }
  }

  lemma {:induction false} CountOfMember(s: string, ch: char)
    requires CountOf(s, ch) != 0
    ensures ch in s
  {
    if s[|s| - 1] != ch {
      CountOfMember(s[..|s| - 1], ch);
    }
  }

  /** The help text is the header line followed by one line per entry. */
  lemma {:induction false} HelpLineCount<W>(entries: seq<Entry<W>>)
    requires forall j :: 0 <= j < |entries| ==> SingleLine(entries[j].action)
    ensures CountOf(HelpHeader + HelpLines(entries), '\n') == |entries| + 1
  {
    CountOfAppend(HelpHeader, HelpLines(entries), '\n');
    HelpLinesCount(entries);
    HeaderCount();
  }

  /** The header is one line. */
  lemma HeaderCount()
    ensures CountOf(HelpHeader, '\n') == 1
  {
    var title := "Key  Action";
    assert HelpHeader == title + "\n";
    CountOfAppend(title, "\n", '\n');
    if CountOf(title, '\n') != 0 {
      CountOfMember(title, '\n');
    }
  }

  lemma {:induction false} HelpLinesCount<W>(entries: seq<Entry<W>>)
    requires forall j :: 0 <= j < |entries| ==> SingleLine(entries[j].action)
    ensures CountOf(HelpLines(entries), '\n') == |entries|
  {
    if entries != [] {
      var last := |entries| - 1;
      HelpLinesCount(entries[..last]);
      CountOfAppend(HelpLines(entries[..last]), HelpLine(entries[last].action), '\n');
      HelpLineIsOneLine(entries[last].action);
    }
  }

  // ---------------------------------------------------------------------
  // The interface object

  class CursesInterface<W> {
    var lines: int
    var cols: int
    var halfLines: int
    var halfCols: int
    var actions: seq<Entry<W>>
    var debug: bool
    var status: Int32
    var isOpen: bool

    constructor ()
      ensures lines == 0 && cols == 0 && halfLines == 0 && halfCols == 0
      ensures actions == [] && !debug && status == 0 && !isOpen
    {
      lines, cols, halfLines, halfCols := 0, 0, 0, 0;
      actions := [];
      debug, status, isOpen := false, 0, false;
    }

    /** `resetActions()`: the table is emptied (the commands are released). */
    method ResetActions()
      modifies this`actions
      ensures actions == []
    {
      actions := [];
    }

    /** `addAction(a, c)`: the pair goes last, the earlier entries stay as they were. */
    method AddAction(a: Action, c: Option<Command<W>>)
      modifies this`actions
      ensures actions == old(actions) + [Entry(a, c)]
      ensures |actions| == |old(actions)| + 1
      ensures HelpLines(actions) == HelpLines(old(actions)) + HelpLine(a)
    {
      HelpLinesSnoc(actions, Entry(a, c));
      actions := actions + [Entry(a, c)];
    }

    /** `setStatus(s)`: negative values are stored as 0, so the mask is never negative. */
    method SetStatus(s: Int32)
      modifies this`status
      ensures status == if s < 0 then 0 else s
      ensures status >= 0
    {
      if s < 0 {
        status := 0;
      } else {
        status := s;
      }
    }

    /** `process()` for the input key `c`: returns 0, and the world is changed
        by the first matching entry's command only. */
    method Process(c: int, w: W) returns (r: int, w': W)
      ensures r == 0
      ensures w' == Dispatch(actions, c, w)
    {
      r, w' := 0, w;
      if c == -1 || c == 0 {
        return;
      }
      if c == KeyResize {
        return;
      }
      var i := 0;
      while i < |actions|
        invariant 0 <= i <= |actions|
        invariant forall j :: 0 <= j < i ==> !KeyMatches(actions[j].action.key, c)
        invariant w' == w
      {
        var e := actions[i];
        if KeyMatches(e.action.key, c) {
          assert FirstMatch(actions, c) == Some(i);
          if e.command.Some? {
            w' := e.command.value.execute(w).0;
          }
          return;
        }
        i := i + 1;
      }
    }

    /** The body of `resetControls`' loop for one action with an opcode:
        where its symbol goes and which attribute it is drawn with. */
    static method DrawControl(a: Action, st: Int32, cmd: Char8, hl: int, hc: int) returns (g: Glyph)
      ensures g == GlyphOf(a, st, cmd, hl, hc)
    {
      var row, col := a.lineOffset, a.colOffset;
      if a.fromCenter {
        row := row + hl;
        col := col + hc;
      }
      var attr;
      if Bits32(st) & Bits32(Widen(a.cmd)) != 0 {
        attr := Standout;
      } else if cmd == a.cmd {
        attr := Bold;
      } else {
        attr := Normal;
      }
      g := Glyph(row, col, a.key, attr);
    }

    /** `resetControls(cmd)`: returns 0, and draws the symbols of `Controls`
        (nothing in debug mode). */
    method ResetControls(cmd: Char8) returns (r: int, drawn: seq<Glyph>)
      ensures r == 0
      ensures drawn == if debug then [] else Controls(actions, status, cmd, halfLines, halfCols)
    {
      r, drawn := 0, [];
      if debug {
        return;
      }
      var entries, st, hl, hc := actions, status, halfLines, halfCols;
      var i := 0;
      while i < |entries|
        invariant 0 <= i <= |entries|
        invariant drawn == Controls(entries[..i], st, cmd, hl, hc)
      {
        var a := entries[i].action;
        ControlsStep(entries, i, st, cmd, hl, hc);
        if a.cmd != 0 {
          var g := DrawControl(a, st, cmd, hl, hc);
          drawn := drawn + [g];
        }
        i := i + 1;
      }
      TakeAll(entries);
    }

    /** `helpString()`: the header line, then one line per entry in table order. */
    method HelpString() returns (s: string)
      ensures s == HelpHeader + HelpLines(actions)
    {
      s := HelpHeader;
      var i := 0;
      while i < |actions|
        invariant 0 <= i <= |actions|
        invariant s == HelpHeader + HelpLines(actions[..i])
      {
        HelpLinesStep(actions, i);
        var line := HelpLine(actions[i].action);
        Assoc(HelpHeader, HelpLines(actions[..i]), line);
        s := s + line;
        i := i + 1;
      }
      TakeAll(actions);
    }
  }
}

=== FILE: launcher.dfy ===
/** The state of the launcher of Launcher.hh that its header defines: the
    angle estimate, the bounds of each axis, the traversal times of each axis
    and direction, the start mark, and the predicates that say how much of the
    calibration is in place. The C++ doubles are modelled as reals. */
module Launchers {

  /** The value that marks a bound as not yet measured: a bound counts as set
      only when it is greater than -1. */
  const Unset: real := -1.0

  predicate IsSet(bound: real)
  {
    bound > Unset
  }

  class Launcher {
    var start: real
    var theta: real
    var phi: real
    var thetaMin: real
    var thetaMax: real
    var phiMin: real
    var phiMax: real
    /** Time taken to traverse the theta axis in the positive and negative
        direction (the fields are times, though `speedValid` names them speeds). */
    var thetaPos: real
    var thetaNeg: real
    var phiPos: real
    var phiNeg: real

    /** All four bounds have been set: none of them holds the sentinel. */
    predicate MinMaxValid()
      reads this
      ensures MinMaxValid() ==> thetaMin != Unset && thetaMax != Unset && phiMin != Unset && phiMax != Unset
    {
      IsSet(thetaMin) && IsSet(thetaMax) && IsSet(phiMin) && IsSet(phiMax)
    }

    /** The angle estimate lies within the bounds of both axes, which are
        therefore ordered. */
    predicate PosValid()
      reads this
      ensures PosValid() ==> thetaMin <= thetaMax && phiMin <= phiMax
    {
      thetaMin <= theta <= thetaMax && phiMin <= phi <= phiMax
    }

    /** All four traversal times are positive, so none of them is zero and
        an angle can be divided by any of them. */
    predicate SpeedValid()
      reads this
      ensures SpeedValid() ==> thetaPos != 0.0 && thetaNeg != 0.0 && phiPos != 0.0 && phiNeg != 0.0
    {
      thetaPos > 0.0 && thetaNeg > 0.0 && phiPos > 0.0 && phiNeg > 0.0
    }

    /** Bounds set, estimate within them, times positive: in particular both
        ranges are non-negative. */
    predicate Calibrated()
      reads this
      ensures Calibrated() ==> thetaMax - thetaMin >= 0.0 && phiMax - phiMin >= 0.0
    {
      MinMaxValid() && PosValid() && SpeedValid()
    }

    /** The width of the theta interval; never negative while the estimate lies in it. */
    function ThetaRange(): (r: real)
      reads this
      ensures thetaMin + r == thetaMax
      ensures PosValid() ==> r >= 0.0
    {
      thetaMax - thetaMin
    }

    /** The width of the phi interval; never negative while the estimate lies in it. */
    function PhiRange(): (r: real)
      reads this
      ensures phiMin + r == phiMax
      ensures PosValid() ==> r >= 0.0
    {
      phiMax - phiMin
    }

    /** `stop()`: clears the start mark and returns 0; calibration is untouched. */
    method Stop() returns (r: int)
      modifies this`start
      ensures start == -1.0 && r == 0
      ensures Calibrated() == old(Calibrated())
    {
      start := -1.0;
      r := 0;
    }

    method SetThetaMinMax(min: real, max: real)
      modifies this`thetaMin, this`thetaMax
      ensures thetaMin == min && thetaMax == max
      ensures ThetaRange() == max - min
      ensures MinMaxValid() <==> IsSet(min) && IsSet(max) && IsSet(phiMin) && IsSet(phiMax)
      ensures PosValid() <==> min <= theta <= max && phiMin <= phi <= phiMax
      ensures SpeedValid() == old(SpeedValid())
    {
      thetaMin := min;
      thetaMax := max;
    }

    method SetPhiMinMax(min: real, max: real)
      modifies this`phiMin, this`phiMax
      ensures phiMin == min && phiMax == max
      ensures PhiRange() == max - min
      ensures MinMaxValid() <==> IsSet(thetaMin) && IsSet(thetaMax) && IsSet(min) && IsSet(max)
      ensures PosValid() <==> thetaMin <= theta <= thetaMax && min <= phi <= max
      ensures SpeedValid() == old(SpeedValid())
    {
      phiMin := min;
      phiMax := max;
    }

    method SetThetaPosNeg(pos: real, neg: real)
      modifies this`thetaPos, this`thetaNeg
      ensures thetaPos == pos && thetaNeg == neg
      ensures SpeedValid() <==> pos > 0.0 && neg > 0.0 && phiPos > 0.0 && phiNeg > 0.0
      ensures MinMaxValid() == old(MinMaxValid()) && PosValid() == old(PosValid())
    {
      thetaPos := pos;
      thetaNeg := neg;
    }

    method SetPhiPosNeg(pos: real, neg: real)
      modifies this`phiPos, this`phiNeg
      ensures phiPos == pos && phiNeg == neg
      ensures SpeedValid() <==> thetaPos > 0.0 && thetaNeg > 0.0 && pos > 0.0 && neg > 0.0
      ensures MinMaxValid() == old(MinMaxValid()) && PosValid() == old(PosValid())
    {
      phiPos := pos;
      phiNeg := neg;
    }
  }

  /** A calibrated launcher has ordered, set bounds on both axes, an estimate
      within them, non-negative ranges and positive traversal times. */
  lemma CalibratedFacts(l: Launcher)
    requires l.Calibrated()
    ensures l.thetaMin <= l.thetaMax && l.phiMin <= l.phiMax
    ensures l.ThetaRange() >= 0.0 && l.PhiRange() >= 0.0
    ensures l.thetaMin > -1.0 && l.phiMin > -1.0
    ensures l.thetaPos > 0.0 && l.thetaNeg > 0.0 && l.phiPos > 0.0 && l.phiNeg > 0.0
  {
  }

  /** A bound at or below the sentinel leaves the launcher uncalibrated. */
  lemma UnsetBoundUncalibrated(l: Launcher)
    requires l.thetaMin <= Unset || l.thetaMax <= Unset || l.phiMin <= Unset || l.phiMax <= Unset
    ensures !l.MinMaxValid() && !l.Calibrated()
  {
  }

  /** Setting the traversal times, then bounds that enclose the current
      estimate, calibrates the launcher (the configuration of main.cc sets
      the times). */
  method Configure(l: Launcher, tMin: real, tMax: real, pMin: real, pMax: real,
                   tPos: real, tNeg: real, pPos: real, pNeg: real)
    requires IsSet(tMin) && IsSet(tMax) && IsSet(pMin) && IsSet(pMax)
    requires tPos > 0.0 && tNeg > 0.0 && pPos > 0.0 && pNeg > 0.0
    requires tMin <= l.theta <= tMax && pMin <= l.phi <= pMax
    modifies l
    ensures l.Calibrated()
    ensures l.theta == old(l.theta) && l.phi == old(l.phi) && l.start == old(l.start)
  {
    l.SetThetaPosNeg(tPos, tNeg);
    l.SetPhiPosNeg(pPos, pNeg);
    l.SetThetaMinMax(tMin, tMax);
    l.SetPhiMinMax(pMin, pMax);
  }
}

=== FILE: protocol.dfy ===
/** The one-byte opcode set of Common.hh. The same values are sent to the
    device as commands and read back from it as status bits; `Value` is the
    command reading and `Reports` the status reading of one shared type. */
module Protocol {
  import opened CTypes

  datatype Opcode = NoOp | Down | Up | Left | Right | Fire | Stop | Status
  {
    /** The byte value of the opcode. `NoOp` is zero and every other opcode is
        a single bit below 0x80. */
    function Value(): (v: bv8)
      ensures v == 0 <==> this == NoOp
      ensures this != NoOp ==> v & (v - 1) == 0
      ensures v < 0x80
    {
      match this
      case NoOp => 0x00
      case Down => 0x01
      case Up => 0x02
      case Left => 0x04
      case Right => 0x08
      case Fire => 0x10
      case Stop => 0x20
      case Status => 0x40
    }

    /** The position of the opcode's bit, for every opcode but `NoOp`. */
    function Bit(): (i: nat)
      requires this != NoOp
      ensures i < 7
      ensures Value() == (1 as bv8) << i
    {
      match this
      case Down => 0
      case Up => 1
      case Left => 2
      case Right => 3
      case Fire => 4
      case Stop => 5
      case Status => 6
    }

    /** The four motion opcodes. */
    predicate IsDirection()
    {
      this == Down || this == Up || this == Left || this == Right
    }

    /** The opcode as the C `char` the program passes around (`char(MSG_LEFT)`). */
    function AsChar(): (c: Char8)
      ensures 0 <= c as int < 0x80
      ensures c as int == Value() as int
    {
      ToChar8(Value() as int)
    }
  }

  /** The bits of an opcode promoted from `char` to `int` are its byte value. */
  lemma CharBits(o: Opcode)
    ensures Bits32(Widen(o.AsChar())) == o.Value() as bv32
  {
    match o
    case NoOp =>
    case Down =>
    case Up =>
    case Left =>
    case Right =>
    case Fire =>
    case Stop =>
    case Status =>
  }

  /** The command reading of a byte: the opcode whose value it is, if any. */
  function Decode(b: bv8): (r: Option<Opcode>)
    ensures r.Some? ==> r.value.Value() == b
    ensures r.None? ==> forall o: Opcode :: o.Value() != b
  {
    match b
    case 0x00 => Some(NoOp)
    case 0x01 => Some(Down)
    case 0x02 => Some(Up)
    case 0x04 => Some(Left)
    case 0x08 => Some(Right)
    case 0x10 => Some(Fire)
    case 0x20 => Some(Stop)
    case 0x40 => Some(Status)
    case _ => None
  }

  /** The status reading of a byte: whether the device reports `o` as active. */
  predicate Reports(status: bv8, o: Opcode)
    ensures Reports(status, o) ==> o != NoOp && status != 0
  {
    status & o.Value() != 0
  }

  /** Decoding the value of an opcode gives the opcode back. */
  lemma DecodeValue(o: Opcode)
    ensures Decode(o.Value()) == Some(o)
  {
  }

  /** Distinct opcodes are distinct `char`s. */
  lemma AsCharInjective(p: Opcode, q: Opcode)
    requires p.AsChar() == q.AsChar()
    ensures p == q
  {
    assert p.Value() as int == q.Value() as int;
    DecodeValue(p);
    DecodeValue(q);
  }

  /** Distinct opcodes share no bit, so their values are distinct as well. */
  lemma Disjoint(a: Opcode, b: Opcode)
    requires a != b
    ensures a.Value() & b.Value() == 0
    ensures a.Value() != b.Value()
  {
  }

  /** The motion opcodes occupy bits 0 to 3; fire, stop and status lie above them. */
  lemma DirectionBits(o: Opcode)
    ensures o.IsDirection() <==> o.Value() & 0x0F == o.Value() && o != NoOp
  {
  }

  /** A status request shares no bit with any motion, fire or stop opcode. */
  lemma StatusRequestIsNoMotion(o: Opcode)
    requires o != Status
    ensures !Reports(Opcode.Status.Value(), o)
  {
  }

  /** A status byte that equals one opcode's value reports that opcode and no
      other: the command and status readings agree bit for bit. */
  lemma ReportsOwnValue(o: Opcode, p: Opcode)
    ensures Reports(o.Value(), p) <==> p == o && o != NoOp
  {
  }

  /** The buffer the libusb transports' `send(msg)` hands to the USB control
      transfer: eight bytes, the message byte first and zero padding after it. */
  function CommandFrame(msg: Char8): (frame: seq<UChar>)
    ensures |frame| == 8
    ensures forall k :: 1 <= k < 8 ==> frame[k] == 0
    ensures frame[0] as int == if msg >= 0 then msg as int else msg as int + 0x100
  {
    var byte := if msg >= 0 then msg as int else msg as int + 0x100;
    [byte as UChar, 0, 0, 0, 0, 0, 0, 0]
  }

  /** The frame of an opcode carries that opcode in its first byte. */
  lemma FrameCarriesOpcode(o: Opcode)
    ensures Decode(CommandFrame(o.AsChar())[0] as int as bv8) == Some(o)
  {
  }
}

=== FILE: sequences.dfy ===
/** Facts about sequence slicing and concatenation, stated for any element
    type. Proved here, away from the recursive functions over tables, they
    are cheap; the table lemmas call them instead of re-deriving them. */
module Sequences {

  lemma SplitAt<X>(s: seq<X>, i: nat)
    requires i <= |s|
    ensures s[..i] + s[i..] == s
  {
  }

  lemma TakeAll<X>(s: seq<X>)
    ensures s[..|s|] == s
  {
  }

  lemma TakeTake<X>(s: seq<X>, i: nat, j: nat)
    requires i <= j <= |s|
    ensures s[..j][..i] == s[..i]
  {
  }

  lemma Snoc<X>(s: seq<X>, x: X)
    ensures (s + [x])[..|s|] == s
    ensures (s + [x])[|s|] == x
    ensures |s + [x]| == |s| + 1
  {
  }

  lemma AppendNil<X>(s: seq<X>)
    ensures s + [] == s
    ensures [] + s == s
  {
  }

  lemma Assoc<X>(s: seq<X>, t: seq<X>, u: seq<X>)
    ensures (s + t) + u == s + (t + u)
  {
  }

  lemma SnocAssoc<X>(s: seq<X>, t: seq<X>, x: X)
    ensures s + (t + [x]) == (s + t) + [x]
  {
  }

  lemma InitLast<X>(s: seq<X>)
    requires s != []
    ensures s == s[..|s| - 1] + [s[|s| - 1]]
  {
  }

  lemma InitAppend<X>(s: seq<X>, t: seq<X>)
    requires t != []
    ensures (s + t)[..|s + t| - 1] == s + t[..|t| - 1]
  {
  }

  lemma DropAppend<X>(s: seq<X>, t: seq<X>)
    requires s != []
    ensures (s + t)[1..] == s[1..] + t
  {
  }

  lemma IndexAppend<X>(s: seq<X>, t: seq<X>, i: nat)
    requires i < |s|
    ensures (s + t)[i] == s[i]
  {
  }
}
